=== FILE: README.md ===
# emitter — a Dafny model of a typed publish/subscribe registry

`createEmitter` (src/index.ts) returns a small registry: a map `listens` from
event type to the `Set` of handlers registered for it, and three operations.
`on(type, handler)` registers a handler and returns an unsubscribe closure.
`off(type, handler?)` deletes one handler, or with no handler clears the
type's set in place. `emit(type, ...args)` synchronously invokes every
handler of the type through `Set.prototype.forEach`. The map itself is
exposed, and the tests clear it directly with `listens.clear()`.

The model is functional. The registry is a value
`map<E, seq<H>>`: each handler set is the sequence of its members in
insertion order (the iteration order of a JavaScript `Set`), with no
duplicates. Every operation returns the map as it is afterwards.

- `wrappers.dfy` — `Option`, for the optional `handler` argument of `off`.
- `ordered_set.dfy` — module `OrderedSet`: a `Set` as a duplicate-free
  sequence, with `Add` (`set.add`) and `Delete` (`set.delete`).
- `emitter.dfy` — module `Emitter`: `On`, `Off`, the unsubscribe closure
  (`Unsubscribe` with `Unbind`), `ClearAll` (`listens.clear()`), and `Emit`,
  the invocation trace of `emit` when no handler changes the registry.
- `live_emit.dfy` — module `LiveEmit`: `emit` as it really runs, walking the
  live set with a cursor while handlers change the registry. What a handler
  does to the registry is given by a parameter `react` (a list of `on`,
  `off` and `listens.clear()` calls). `EmitLive` returns the invocation
  trace and the final registry.
- `scenarios.dfy` — module `Scenarios`: the repository's test cases replayed
  on the model.

Invocation is not execution. `emit` produces a trace of
`Call(handler, args)` values, one per invocation, in order.

The `forEach` walk follows `Set.prototype.forEach`:
- a member deleted before the cursor reaches it is skipped;
- deleting a member the cursor has already passed (such as the handler being
  invoked) skips nothing, because the cursor shifts back with it;
- a member added during the pass is visited later in the same pass;
- `off(type)` during the pass empties what is left of it;
- `listens.clear()` only drops the map's reference to the set, so the pass
  keeps walking the set it started with.

Two consequences of walking the live set are worth stating on their own.
- `emit` walks the live `Set` (src/index.ts:36), not a snapshot taken when
  the pass starts. Handlers added to it during the pass are called
  (`Scenarios.AddedDuringPassIsVisited`). Handlers deleted before the cursor
  reaches them are not called (`Scenarios.RemovedAheadIsSkipped`). When
  handlers change nothing, or only unsubscribe themselves, the live walk
  invokes exactly what a snapshot would (`LiveEmit.EmitLiveQuiet`,
  `LiveEmit.EmitLiveSelfContained`).
- `off(type, h)` and the unsubscribe closure only call `delete` on the
  type's set (src/index.ts:22). Deleting the last handler therefore leaves
  the key, holding an empty set, exactly as `off(type)` does
  (test/index.test.ts:132-136, `Scenarios.RemovesEventOnNoListeners`).

## Model

| member | source | states |
|---|---|---|
| OrderedSet.Add | src/index.ts:29 | `set.add(h)`: the old members keep their positions (the old sequence is a prefix), `h` is a member, nothing else is new, the size grows by one exactly when `h` was absent, and a duplicate-free set stays duplicate-free |
| OrderedSet.Delete | src/index.ts:22 | `set.delete(h)`: `h` is no longer a member, every other member stays, nothing is added, an absent `h` leaves the set unchanged, and a duplicate-free set stays duplicate-free |
| OrderedSet.DeleteAt | src/index.ts:22 | deleting the member at position k of a duplicate-free set cuts out exactly position k, so the other members keep their relative order |
| Emitter.On | src/index.ts:27-31 | a type without an entry gets a new set holding exactly `[h]`; an existing set gets `h` added with set semantics, so adding a registered handler leaves the map unchanged and a new one grows the set by one; the key set grows by exactly `t`, other types are unchanged, the returned closure is bound to `(t, h)`, and duplicate-freedom is preserved |
| Emitter.Off | src/index.ts:17-25 | with a handler: that handler is gone from `t`, every other handler stays, nothing is added, and the size drops by one when it was registered; an unregistered handler or an unknown type leaves the map unchanged; without a handler: `t`'s set becomes empty but the key stays; no key is created or removed, other types are unchanged, and duplicate-freedom is preserved |
| Emitter.OffKeepsOrder | src/index.ts:22 | `off(t, h)` leaves `t`'s other handlers in their original relative order: the result is the old sequence with `h`'s position cut out |
| Emitter.Unbind | src/index.ts:30 | the unsubscribe closure deletes its own handler from its own type and nothing else: no key is created or removed, other types are unchanged, and other handlers of the type stay |
| Emitter.UnbindIdempotent | test/index.test.ts:121-137 | calling an unsubscribe closure twice has the same effect as calling it once |
| Emitter.UnbindUndoesOn | src/index.ts:27-31 | for a handler not yet registered for the type, unsubscribing it right after registering it restores the map, except that a type that had no entry keeps an empty set |
| Emitter.ClearAll | test/index.test.ts:115 | `listens.clear()`: no key remains, and the empty map is a valid registry |
| Emitter.UnbindAfterClearAll | test/index.test.ts:112-119 | after `listens.clear()`, an old unsubscribe closure has no effect and creates no entry |
| Emitter.Calls | src/index.ts:36 | the invocations of a handler sequence: one per handler, at the same position, each with the same argument list |
| Emitter.Emit | src/index.ts:33-38 | an unknown type invokes nothing; otherwise the trace has one invocation per handler of the type, in insertion order, each with the emitted arguments, and invokes no handler that is not registered for the type |
| Emitter.EmitVisitsEachOnce | src/index.ts:36 | every registered handler of the type is invoked exactly once by `emit` |
| Emitter.EmitAfterClearAll | test/index.test.ts:112-119 | after `listens.clear()`, emitting any type invokes nothing |
| LiveEmit.Apply | src/index.ts:17-31 | a registry change made by a handler during a pass has the same effect as outside one: a subscribed handler is registered, a removed handler is gone, a full clear leaves no keys, other types are unchanged, and duplicate-freedom is preserved |
| LiveEmit.DeleteVisited | src/index.ts:36 | deleting a member the cursor has already passed shrinks the set by one and leaves the members ahead of the cursor (shifted back by one) exactly as they were |
| LiveEmit.DeletePending | src/index.ts:36 | deleting a member the cursor has not reached shrinks the set by one and deletes it from the members still ahead |
| LiveEmit.Step | src/index.ts:36 | one registry change during a pass keeps the pass consistent: the cursor stays within the walked set, the set stays duplicate-free, the map stays valid and holds the walked set under the emitted type while it is attached; the registry changes exactly as outside a pass; the walked set becomes detached exactly when the change is `listens.clear()`, and never re-attaches |
| LiveEmit.StepPending | src/index.ts:36 | what the pass still has to visit after one change: unchanged for changes to other types, for `listens.clear()` and after the walked set is detached; a newly added handler is queued at the end; a deleted handler is removed from what is ahead (nothing changes if it was already passed); `off(type)` leaves nothing ahead |
| LiveEmit.RemoveVisitedKeepsPending | test/index.test.ts:139-153 | when the invoked handler, or one already passed, deletes itself from the set, every handler not yet visited is still ahead of the cursor |
| LiveEmit.ApplyAll | src/index.ts:17-31 | a sequence of `on`, `off` and `listens.clear()` calls made outside a pass keeps the registry valid and leaves every type that no call names, and that no `listens.clear()` reaches, as it was |
| LiveEmit.StepAll | src/index.ts:36 | all changes made by one invoked handler keep the pass consistent; the registry ends up as the same calls would leave it outside a pass, and the walked set is detached exactly when one of the calls is `listens.clear()` |
| LiveEmit.Invoke | src/index.ts:36 | invoking the handler under the cursor keeps the pass consistent, leaves the registry as the handler's calls would leave it outside a pass, and keeps the walked set attached unless the handler calls `listens.clear()` |
| LiveEmit.Run | src/index.ts:36 | a finished walk leaves a valid registry and every invocation in it carries the emitted arguments; with nothing ahead it invokes nothing and changes nothing; otherwise its first invocation is the handler under the cursor; with handlers still ahead and no fuel left it gives no result |
| LiveEmit.EmitLive | src/index.ts:33-38 | `emit` with handlers that may change the registry: an unknown or empty type invokes nothing and changes nothing; otherwise the first invocation is the type's first handler; every invocation carries the emitted arguments, and the registry stays valid |
| LiveEmit.StepAllPendingSource | src/index.ts:36 | after all changes of one invoked handler, every handler ahead of the cursor was already ahead, or was subscribed to the emitted type by one of those changes |
| LiveEmit.InvokePending | src/index.ts:36 | after invoking the handler under the cursor, the cursor is past it: every handler ahead was already ahead behind it or was subscribed to the emitted type by it, and every handler that was ahead behind it is still ahead unless the invoked handler deleted it from the type or cleared the type's set |
| LiveEmit.StepAllKeepsUnlessRemoved | src/index.ts:36 | a handler ahead of the cursor stays ahead through one handler's changes unless one of them deletes it from the emitted type or clears that type's set |
| LiveEmit.RunInvokesPendingOrSubscribed | src/index.ts:36 | every handler a walk invokes was ahead of the cursor when the walk started, or was subscribed to the emitted type by a handler invoked earlier in the same walk |
| LiveEmit.EmitLiveInvokesRegisteredOrSubscribed | src/index.ts:33-38 | every handler the live `emit` invokes was registered for the type when `emit` was called, or was subscribed to it by a handler invoked earlier in the same pass; with no such subscription, only registered handlers are invoked |
| LiveEmit.RunInvokesUnlessRemoved | src/index.ts:36 | every handler ahead of the cursor when the walk starts is invoked, unless a handler the walk invokes deletes it from the emitted type or clears that type's set |
| LiveEmit.EmitLiveInvokesUnlessRemoved | src/index.ts:33-38 | every handler registered for the type when `emit` is called is invoked by the pass, unless a handler the pass invokes deletes it from the type or clears the type's set |
| LiveEmit.EmitLiveInvokesUnremoved | src/index.ts:33-38 | a handler registered for the type when `emit` is called, which no handler's reaction removes from the type either alone or by clearing the type, is invoked by the pass |
| LiveEmit.RunInvokesOnceUnlessResubscribed | src/index.ts:36 | a walk invokes a handler a second time only if some handler invoked between the two invocations, the first of them included, subscribed it to the emitted type again |
| LiveEmit.EmitLiveInvokesOnceUnlessResubscribed | src/index.ts:33-38 | a pass of `emit` invokes each handler at most once, unless a handler invoked since its previous invocation subscribed it to the type again |
| LiveEmit.StepAllSelfContained | src/index.ts:36 | changes that concern other types, `listens.clear()`, or the invoked handler unsubscribing itself leave what is ahead of the cursor unchanged |
| LiveEmit.RunSelfContained | src/index.ts:36 | a walk whose handlers only unsubscribe themselves, touch other types or clear the map invokes exactly the handlers ahead of the cursor, in order, once each |
| LiveEmit.EmitLiveSelfContained | test/index.test.ts:139-153 | when handlers only unsubscribe themselves, touch other types or clear the map, the live `emit` invokes exactly what the snapshot `Emit` lists |
| LiveEmit.RunQuiet | src/index.ts:33-38 | a walk whose handlers change nothing leaves the registry as it was |
| LiveEmit.EmitLiveQuiet | src/index.ts:33-38 | with handlers that change nothing, the live `emit` equals the snapshot `Emit` trace and leaves the registry unchanged |
| Scenarios.AddsListeners | test/index.test.ts:12-18 | one handler for 'one' and two distinct handlers for 'two' give sizes 1 and 2 |
| Emitter.OnIdempotent | src/index.ts:29 | registering the same handler twice for a type is the same as registering it once |
| Scenarios.CallListener | test/index.test.ts:21-34 | emitting 'tick' with (2, 4) invokes the handler once with (2, 4); after unsubscribing, emitting invokes nothing |
| Scenarios.CallsListeners | test/index.test.ts:36-51 | three emits of (1, 1), (2, 2) and (3, 3, 3) reach the one handler with each argument list, in order |
| Scenarios.UnbindsListener | test/index.test.ts:53-73 | both handlers receive the first emit; after the first is unsubscribed only the second receives the next |
| Scenarios.OffListeners | test/index.test.ts:91-110 | `off('calc')` keeps the key but the next emit invokes nothing |
| Scenarios.RemovesEventOnNoListeners | test/index.test.ts:121-137 | unsubscribing two handlers, each twice, gives sizes 1, 1, 0, 0 |
| Scenarios.RemovesListenerDuringEvent | test/index.test.ts:139-153 | handler 1 unsubscribes itself while it runs and handler 2 is still invoked: the trace is [1, 2] |
| Scenarios.UnremovedHandlerIsInvoked | src/index.ts:36 | when handler 1 of [1, 2] unsubscribes itself and subscribes handler 3, handler 2 is still invoked in the same pass |
| Scenarios.UnbindsItselfStep | src/index.ts:36 | when the handler just passed by the walk deletes itself from [1, 2], the walk's next handler is still handler 2 |
| Scenarios.UnbindsItselfAddsAnotherFirstInvocation | src/index.ts:36 | after handler 1 of [1, 2] unsubscribes itself and subscribes handler 3, the set is [2, 3] and the walk stands before handler 2 |
| Scenarios.UnbindsItselfAddsAnotherRest | src/index.ts:36 | from there the walk invokes 2 and then 3 and leaves [2, 3] registered |
| Scenarios.UnbindsItselfAddsAnotherPass | src/index.ts:33-38 | the whole pass over [1, 2], where handler 1 unsubscribes itself and subscribes handler 3, invokes exactly 1, 2, 3 in that order and leaves [2, 3] registered |
| Scenarios.AddedDuringPassIsVisited | src/index.ts:36 | a handler subscribed to the emitted type during the pass is invoked later in the same pass |
| Scenarios.UnbindsAnotherFirstInvocation | src/index.ts:36 | when handler 1 of [1, 2] unsubscribes handler 2, both the walked set and the map are left holding [1], with the cursor past handler 1 |
| Scenarios.RemovedAheadIsSkipped | src/index.ts:36 | a handler unsubscribed by an earlier handler of the same pass, before the cursor reaches it, is not invoked |

## Left out

- The TypeScript typing of events (`EventsMap`, `Handler<T>`, the per-type argument tuples, src/index.ts:1-14). It is compile-time only. Event types, handlers and argument lists are type parameters here.
- What handlers do beyond changing the registry. A handler's registry changes are given as data (`react`), and its invocation is recorded as a trace entry rather than executed. In particular a handler that calls `emit` itself (a re-entrant emit) cannot be expressed: a `Mutation` has no emit, and the invocations of a nested pass would not appear in the outer trace.
- Handlers that throw. An exception from a handler would end the `forEach` walk and propagate out of `emit`; the model has no exceptions.
- LiveEmit.Run: a pass whose handlers keep subscribing new handlers to the emitted type never ends in the source. The model bounds the number of invocations by a `fuel` argument and returns `None` when it runs out.
- LiveEmit.Run: for arbitrary handler reactions the contract fixes the first invocation and the arguments of all of them. Which handlers the walk invokes is bounded from both sides by lemmas: only handlers that were ahead or were subscribed during the walk (`LiveEmit.RunInvokesPendingOrSubscribed`), and every handler that was ahead unless it was removed (`LiveEmit.RunInvokesUnlessRemoved`). The number of invocations of a handler is bounded by `LiveEmit.RunInvokesOnceUnlessResubscribed`: at most once, unless a handler invoked in between subscribed it again. The exact order and number of the later invocations are pinned only when handlers change nothing or only unsubscribe themselves (`LiveEmit.RunSelfContained`, `LiveEmit.RunQuiet`). A handler that is deleted and subscribed again during a pass can be invoked twice, so no simpler closed form of the trace holds in general.
- LiveEmit.EmitLive: a handler's registry changes are a fixed function of the handler and the argument list (`react`). In the source a handler is an arbitrary closure, so its changes may depend on its own state or on how many times it has already run. A handler that re-subscribes another only on its first call, or that behaves differently on a second invocation in the same pass, is not expressible.
- JavaScript object identity of the `Map` and `Set` objects, and the `instanceof Map` check in test/index.test.ts:9. The only direct change to the exposed map that is modelled is `listens.clear()`. After that clear, a later `on` for the emitted type creates a new set, which a running pass does not walk.
- Truthiness in `off`: `handler ? ... : ...` treats any function as present. Handlers are functions, so the optional handler is modelled with `Option`.
- Concurrency. There is none: everything is single-threaded and synchronous.

=== FILE: emitter.dfy ===
/**
 The registry built by `createEmitter` (src/index.ts): the exposed map
 `listens` from event type to the set of its handlers, and the operations
 `on`, `off` and `emit` over it, plus the direct `listens.clear()` that
 callers may perform. The map is a value here; each operation returns the
 map as it is afterwards.

 Handlers are opaque values compared by identity (`H` with equality). The
 argument list given to `emit` is an opaque value of type `A`: the registry
 never looks inside it.
 */
module Emitter {
  import opened Wrappers
  import opened OrderedSet

  /** `listens`: each event type with the members of its handler set, in
      insertion order. */
  type Registry<E, H> = map<E, seq<H>>

  /** Every handler set is a set: no handler appears twice for one type. */
  ghost predicate Valid<E, H>(r: Registry<E, H>) {
    forall t :: t in r ==> NoDup(r[t])
  }

  /** The zero-argument closure returned by `on`: it remembers the pair it
      was registered with and calls `off` on exactly that pair. */
  datatype Unsubscribe<E, H> = Unsubscribe(event: E, handler: H)

  /** What `on` leaves behind: the updated map and the closure it returns. */
  datatype Registered<E, H> = Registered(listens: Registry<E, H>, unbind: Unsubscribe<E, H>)

  /** One handler invocation performed by `emit`: which handler, with which
      argument list. */
  datatype Call<H, A> = Call(handler: H, args: A)

  /** `on(type, handler)`: a type without an entry gets a new set holding just
      the handler; an existing set gets the handler added with set semantics.
      No other type is touched. */
  function On<E(==), H(==)>(r: Registry<E, H>, t: E, h: H): (out: Registered<E, H>)
    ensures out.unbind == Unsubscribe(t, h)
    ensures out.listens.Keys == r.Keys + {t}
    ensures forall u :: u in r && u != t ==> out.listens[u] == r[u]
    ensures t !in r ==> out.listens[t] == [h]
    ensures t in r ==> r[t] <= out.listens[t]
    ensures h in out.listens[t]
    ensures forall y :: y in out.listens[t] ==> y == h || (t in r && y in r[t])
    ensures t in r && h in r[t] ==> out.listens == r
    ensures t in r && h !in r[t] ==> |out.listens[t]| == |r[t]| + 1
    ensures Valid(r) ==> Valid(out.listens)
  {
    var listens := if t in r then r[t := Add(r[t], h)] else r[t := [h]];
    Registered(listens, Unsubscribe(t, h))
  }

  /** Registering the same handler for a type again is a no-op. */
  lemma OnIdempotent<E, H>(r: Registry<E, H>, t: E, h: H)
    ensures On(On(r, t, h).listens, t, h).listens == On(r, t, h).listens
  {
  }

  /** `off(type, handler?)`: with a handler, deletes that handler from the
      type's set; without one, clears the set in place, so the key stays with
      an empty set. A type without an entry, or a handler that is not
      registered, leaves the map as it was. */
  function Off<E(==), H(==)>(r: Registry<E, H>, t: E, handler: Option<H>): (r': Registry<E, H>)
    ensures r'.Keys == r.Keys
    ensures forall u :: u in r && u != t ==> r'[u] == r[u]
    ensures t !in r ==> r' == r
    ensures t in r && handler.None? ==> |r'[t]| == 0
    ensures t in r && handler.Some? ==> handler.value !in r'[t]
    ensures t in r && handler.Some? ==>
              forall y :: y in r[t] && y != handler.value ==> y in r'[t]
    ensures t in r ==> forall y :: y in r'[t] ==> y in r[t]
    ensures handler.Some? && t in r && handler.value !in r[t] ==> r' == r
    ensures handler.Some? && t in r && handler.value in r[t] && NoDup(r[t]) ==>
              |r'[t]| == |r[t]| - 1
    ensures Valid(r) ==> Valid(r')
  {
    if t in r then
      match handler
      case Some(h) =>
        assert NoDup(r[t]) && h in r[t] ==> |Delete(r[t], h)| == |r[t]| - 1 by {
          if NoDup(r[t]) && h in r[t] {
            var k :| 0 <= k < |r[t]| && r[t][k] == h;
            DeleteAt(r[t], k);
          }
        }
        r[t := Delete(r[t], h)]
      case None => r[t := []]
    else r
  }

  /** `off(type, handler)` keeps the other handlers of the type in their
      original relative order: it cuts out exactly the handler's position. */
  lemma {:induction false} OffKeepsOrder<E, H>(r: Registry<E, H>, t: E, k: nat)
    requires t in r && NoDup(r[t])
    requires k < |r[t]|
    ensures Off(r, t, Some(r[t][k]))[t] == r[t][..k] + r[t][k + 1..]
  {
    DeleteAt(r[t], k);
  }

  /** Calling the closure returned by `on`. It only ever deletes its own
      handler from its own type, and it never creates an entry, so it is safe
      on a map that has since been cleared or changed. */
  function Unbind<E(==), H(==)>(tok: Unsubscribe<E, H>, r: Registry<E, H>): (r': Registry<E, H>)
    ensures r'.Keys == r.Keys
    ensures forall u :: u in r && u != tok.event ==> r'[u] == r[u]
    ensures tok.event in r ==> tok.handler !in r'[tok.event]
    ensures tok.event in r ==>
              forall y :: y in r[tok.event] && y != tok.handler ==> y in r'[tok.event]
    ensures tok.event in r ==> forall y :: y in r'[tok.event] ==> y in r[tok.event]
    ensures Valid(r) ==> Valid(r')
  {
    Off(r, tok.event, Some(tok.handler))
  }

  /** Calling an unsubscribe closure a second time changes nothing. */
  lemma UnbindIdempotent<E, H>(tok: Unsubscribe<E, H>, r: Registry<E, H>)
    ensures Unbind(tok, Unbind(tok, r)) == Unbind(tok, r)
  {
  }

  /** Unsubscribing right after subscribing a new handler restores the map,
      except that a type that had no entry keeps one with an empty set. */
  lemma {:induction false} UnbindUndoesOn<E, H>(r: Registry<E, H>, t: E, h: H)
    requires t in r ==> h !in r[t]
    ensures Unbind(On(r, t, h).unbind, On(r, t, h).listens)
            == if t in r then r else r[t := []]
  {
    if t in r {
      DeleteLast(r[t], h);
      assert Add(r[t], h) == r[t] + [h];
    } else {
      assert Delete([h], h) == [];
    }
  }

  /** `listens.clear()`, performed directly on the exposed map. */
  function ClearAll<E, H>(r: Registry<E, H>): (r': Registry<E, H>)
    ensures Valid(r')
    ensures forall t :: t !in r'
  {
    map[]
  }

  /** After the whole map has been cleared, an old unsubscribe closure runs
      without effect and creates no entry. */
  lemma UnbindAfterClearAll<E, H>(tok: Unsubscribe<E, H>, r: Registry<E, H>)
    ensures Unbind(tok, ClearAll(r)) == ClearAll(r)
  {
  }

  /** The invocations of a handler set's members, in iteration order, all
      with the same argument list. */
  function Calls<H, A>(hs: seq<H>, args: A): (cs: seq<Call<H, A>>)
    ensures |cs| == |hs|
    ensures forall i :: 0 <= i < |hs| ==> cs[i] == Call(hs[i], args)
  {
    if |hs| == 0 then [] else [Call(hs[0], args)] + Calls(hs[1..], args)
  }

  /** `emit(type, ...args)` when no handler changes the map: the trace of
      handler invocations. An unknown or empty type invokes nothing;
      otherwise each handler of the type is invoked in insertion order with
      the same arguments, and nothing else is invoked. */
  function Emit<E(==), H, A>(r: Registry<E, H>, t: E, args: A): (trace: seq<Call<H, A>>)
    ensures t !in r ==> trace == []
    ensures t in r ==> |trace| == |r[t]|
    ensures t in r ==> forall i :: 0 <= i < |trace| ==> trace[i].handler == r[t][i]
    ensures forall c :: c in trace ==> t in r && c.handler in r[t] && c.args == args
  {
    if t in r then Calls(r[t], args) else []
  }

  /** Each registered handler of the type is invoked exactly once. */
  lemma EmitVisitsEachOnce<E, H, A>(r: Registry<E, H>, t: E, args: A, h: H)
    requires Valid(r)
    requires t in r && h in r[t]
    ensures exists i :: 0 <= i < |Emit(r, t, args)| && Emit(r, t, args)[i].handler == h
    ensures forall i, j ::
              (0 <= i < |Emit(r, t, args)| && 0 <= j < |Emit(r, t, args)|
               && Emit(r, t, args)[i].handler == h && Emit(r, t, args)[j].handler == h) ==> i == j
  {
    var trace := Emit(r, t, args);
    forall i, j | 0 <= i < |trace| && 0 <= j < |trace| && trace[i].handler == h && trace[j].handler == h
      ensures i == j
    {
      UniquePosition(r[t], i, j);
    }
  }

  /** After a full clear, emitting any type invokes nothing. */
  lemma EmitAfterClearAll<E, H, A>(r: Registry<E, H>, t: E, args: A)
    ensures Emit(ClearAll(r), t, args) == []
  {
  }
}

=== FILE: live_emit.dfy ===
/**
 `emit` as it really runs: `handlers.forEach(...)` walks the handler set
 live, so handlers that change the map while they are being invoked can
 change which handlers the same pass still reaches. The walk follows the
 semantics of `Set.prototype.forEach`:
 - a member deleted before the cursor reaches it is skipped;
 - deleting a member the cursor has already passed (including the one
   being invoked) skips nothing;
 - a member added to the set during the pass is visited later in it;
 - clearing the set ends the pass unless members are added again;
 - `listens.clear()` only drops the map's reference to the set: the pass
   keeps walking the set it started with, and a later `on` for the same
   type creates a new set that this pass does not see.

 A handler's effect on the registry is given as a parameter `react`: the
 list of registry mutations it performs when invoked with the argument
 list. Handlers are otherwise opaque; whatever else they do is not modelled.
 */
module LiveEmit {
  import opened Wrappers
  import opened OrderedSet
  import opened Emitter

  /** A registry mutation a handler can perform while it runs: `on`, `off`
      (with or without a handler; an unsubscribe closure is `off` with its
      handler) and `listens.clear()`. */
  datatype Mutation<E, H> =
    | Subscribe(event: E, handler: H)
    | Remove(event: E, target: Option<H>)
    | ClearListens

  /** The state of one `emit` pass: the registry, the handler set being
      walked, how many of its current members the walk has passed, and
      whether the map still refers to that set under the emitted type. */
  datatype Pass<E, H> = Pass(listens: Registry<E, H>, live: seq<H>, next: nat, attached: bool)

  /** The result of a finished pass: the invocations made, in order, and the
      registry afterwards. */
  datatype Outcome<E, H, A> = Outcome(trace: seq<Call<H, A>>, listens: Registry<E, H>)

  /** Applies one mutation to the registry, exactly as calling the operation
      outside of any pass would. */
  function Apply<E(==), H(==)>(r: Registry<E, H>, m: Mutation<E, H>): (r': Registry<E, H>)
    ensures Valid(r) ==> Valid(r')
    ensures m.Subscribe? ==> m.event in r' && m.handler in r'[m.event]
    ensures m.Remove? && m.target.Some? && m.event in r ==>
              m.event in r' && m.target.value !in r'[m.event]
    ensures m.ClearListens? ==> r'.Keys == {}
    ensures forall u :: u in r && (m.Subscribe? || m.Remove?) && u != m.event ==> u in r' && r'[u] == r[u]
  {
    match m
    case Subscribe(t, h) => On(r, t, h).listens
    case Remove(t, h) => Off(r, t, h)
    case ClearListens => ClearAll(r)
  }

  /** What a pass keeps true while it runs, for the emitted type `t`. */
  ghost predicate Inv<E, H>(p: Pass<E, H>, t: E) {
    && p.next <= |p.live|
    && NoDup(p.live)
    && Valid(p.listens)
    && (p.attached ==> t in p.listens && p.listens[t] == p.live)
  }

  /** The members the walk has not reached yet. */
  function Pending<E, H>(p: Pass<E, H>): (s: seq<H>)
    requires p.next <= |p.live|
  {
    p.live[p.next..]
  }

  /** Deleting a member the cursor has already passed shifts the cursor back
      by one and leaves the members still ahead of it as they were. */
  lemma DeleteVisited<T>(s: seq<T>, n: nat, x: T)
    requires NoDup(s)
    requires n <= |s|
    requires x in s[..n]
    ensures n >= 1
    ensures |Delete(s, x)| == |s| - 1
    ensures Delete(s, x)[n - 1..] == s[n..]
  {
    assert s == s[..n] + s[n..];
    Disjoint(s, n, x);
    DeleteAppend(s[..n], s[n..], x);
    DeleteMember(s[..n], x);
  }

  /** Deleting a member the cursor has not reached yet leaves the visited
      part alone and deletes it from the part still ahead. */
  lemma DeletePending<T>(s: seq<T>, n: nat, x: T)
    requires NoDup(s)
    requires n <= |s|
    requires x in s[n..]
    ensures |Delete(s, x)| == |s| - 1
    ensures Delete(s, x)[n..] == Delete(s[n..], x)
  {
    assert s == s[..n] + s[n..];
    assert x !in s[..n] by {
      if x in s[..n] {
        Disjoint(s, n, x);
      }
    }
    DeleteAppend(s[..n], s[n..], x);
    DeleteMember(s, x);
  }

  /** One mutation performed by the handler being invoked. The registry
      changes as it would outside a pass; the set being walked changes too
      when it is the one the mutation reaches. */
  function Step<E(==), H(==)>(p: Pass<E, H>, t: E, m: Mutation<E, H>): (p': Pass<E, H>)
    requires Inv(p, t)
    ensures Inv(p', t)
    ensures p'.listens == Apply(p.listens, m)
    ensures p'.attached == (p.attached && !m.ClearListens?)
  {
    var listens := Apply(p.listens, m);
    if !p.attached then p.(listens := listens)
    else
      match m
      case Subscribe(u, h) =>
        if u == t then p.(listens := listens, live := Add(p.live, h)) else p.(listens := listens)
      case Remove(u, Some(h)) =>
        if u != t then p.(listens := listens)
        else if h in p.live[..p.next] then
          DeleteVisited(p.live, p.next, h);
          p.(listens := listens, live := Delete(p.live, h), next := p.next - 1)
        else
          assert h in p.live ==> h in p.live[p.next..] by {
            assert p.live == p.live[..p.next] + p.live[p.next..];
          }
          if h in p.live then
            DeletePending(p.live, p.next, h);
            p.(listens := listens, live := Delete(p.live, h))
          else
            p.(listens := listens)
      case Remove(u, None) =>
        if u == t then Pass(listens, [], 0, true) else p.(listens := listens)
      case ClearListens => p.(listens := listens, attached := false)
  }

  /** How one mutation changes what the pass still has to visit. Only a
      mutation that reaches the set being walked has any effect: adding a
      new handler queues it at the end, deleting a handler removes it from
      what is ahead (and does nothing to what is ahead when the handler has
      already been visited), and clearing the set leaves nothing ahead. */
  lemma StepPending<E, H>(p: Pass<E, H>, t: E, m: Mutation<E, H>)
    requires Inv(p, t)
    ensures (!p.attached || m.ClearListens? || m.event != t) ==> Pending(Step(p, t, m)) == Pending(p)
    ensures p.attached && m.Subscribe? && m.event == t ==>
              Pending(Step(p, t, m)) == if m.handler in p.live then Pending(p) else Pending(p) + [m.handler]
    ensures p.attached && m.Remove? && m.event == t && m.target.Some? ==>
              Pending(Step(p, t, m)) == Delete(Pending(p), m.target.value)
    ensures p.attached && m.Remove? && m.event == t && m.target.None? ==>
              Pending(Step(p, t, m)) == []
  {
    if p.attached && m.Remove? && m.event == t && m.target.Some? {
      var h := m.target.value;
      assert p.live == p.live[..p.next] + p.live[p.next..];
      if h in p.live[..p.next] {
        DeleteVisited(p.live, p.next, h);
        Disjoint(p.live, p.next, h);
      } else if h in p.live {
        DeletePending(p.live, p.next, h);
      }
    } else if p.attached && m.Subscribe? && m.event == t {
      assert p.live + [m.handler] == p.live[..p.next] + (p.live[p.next..] + [m.handler]);
    }
  }

  /** The cursor property of the walk: when the handler being invoked (or any
      handler the walk has already passed) deletes itself from the set,
      every handler still ahead of the cursor is still ahead of it. */
  lemma RemoveVisitedKeepsPending<E, H>(p: Pass<E, H>, t: E, x: H)
    requires Inv(p, t)
    requires x in p.live[..p.next]
    ensures Pending(Step(p, t, Remove(t, Some(x)))) == Pending(p)
  {
    StepPending(p, t, Remove(t, Some(x)));
    Disjoint(p.live, p.next, x);
  }

  /** The registry after a sequence of changes made outside any pass. */
  function ApplyAll<E(==), H(==)>(r: Registry<E, H>, ms: seq<Mutation<E, H>>): (r': Registry<E, H>)
    ensures Valid(r) ==> Valid(r')
    ensures forall u :: u in r && (forall m :: m in ms ==> !m.ClearListens? && m.event != u) ==>
              u in r' && r'[u] == r[u]
    decreases |ms|
  {
    if |ms| == 0 then r else ApplyAll(Apply(r, ms[0]), ms[1..])
  }

  /** All mutations one handler performs during its invocation, in order:
      the registry ends up as the same calls would leave it outside a pass,
      and the walked set is detached exactly when one of them is
      `listens.clear()`. */
  function StepAll<E(==), H(==)>(p: Pass<E, H>, t: E, ms: seq<Mutation<E, H>>): (p': Pass<E, H>)
    requires Inv(p, t)
    ensures Inv(p', t)
    ensures p'.listens == ApplyAll(p.listens, ms)
    ensures p'.attached == (p.attached && ClearListens !in ms)
    decreases |ms|
  {
    if |ms| == 0 then p
    else
      assert ms == [ms[0]] + ms[1..];
      StepAll(Step(p, t, ms[0]), t, ms[1..])
  }

  /** Invoking the handler under the cursor: the cursor moves past it, then
      the handler's changes are applied in order (see `InvokePending` for
      what is ahead of the cursor afterwards). */
  function Invoke<E(==), H(==), A>(p: Pass<E, H>, t: E, args: A,
                                   react: (H, A) -> seq<Mutation<E, H>>): (p': Pass<E, H>)
    requires Inv(p, t)
    requires p.next < |p.live|
    ensures Inv(p', t)
    ensures p'.listens == ApplyAll(p.listens, react(p.live[p.next], args))
    ensures p'.attached == (p.attached && ClearListens !in react(p.live[p.next], args))
  {
    StepAll(p.(next := p.next + 1), t, react(p.live[p.next], args))
  }

  /** What is ahead of the cursor after an invocation: what was ahead behind
      the invoked handler, less what the handler removed, plus what it
      subscribed to the emitted type. */
  lemma InvokePending<E, H, A>(p: Pass<E, H>, t: E, args: A,
                               react: (H, A) -> seq<Mutation<E, H>>)
    requires Inv(p, t)
    requires p.next < |p.live|
    ensures forall x :: x in Pending(Invoke(p, t, args, react)) ==>
              x in Pending(p)[1..] || Subscribe(t, x) in react(p.live[p.next], args)
    ensures forall x :: x in Pending(p)[1..] ==>
              || x in Pending(Invoke(p, t, args, react))
              || Remove(t, Some(x)) in react(p.live[p.next], args)
              || Remove(t, None) in react(p.live[p.next], args)
  {
    var p1 := p.(next := p.next + 1);
    var ms := react(p.live[p.next], args);
    assert Pending(p1) == Pending(p)[1..];
    StepAllPendingSource(p1, t, ms);
    StepAllKeepsUnlessRemoved(p1, t, ms);
  }

  /** The `forEach` walk from the current cursor: invoke the handler under
      the cursor until nothing is ahead. A pass whose handlers keep adding
      new handlers can go on forever; `fuel` bounds the number of
      invocations, and running out of it gives `None`. */
  function Run<E(==), H(==), A>(p: Pass<E, H>, t: E, args: A,
                                react: (H, A) -> seq<Mutation<E, H>>, fuel: nat): (out: Option<Outcome<E, H, A>>)
    requires Inv(p, t)
    ensures out.Some? ==> Valid(out.value.listens)
    ensures out.Some? ==> forall c :: c in out.value.trace ==> c.args == args
    ensures out.Some? && |Pending(p)| == 0 ==> out.value.trace == [] && out.value.listens == p.listens
    ensures out.Some? && |Pending(p)| > 0 ==>
              |out.value.trace| > 0 && out.value.trace[0] == Call(Pending(p)[0], args)
    ensures |Pending(p)| > 0 && fuel == 0 ==> out.None?
    decreases fuel
  {
    if p.next == |p.live| then Some(Outcome([], p.listens))
    else if fuel == 0 then None
    else
      match Run(Invoke(p, t, args, react), t, args, react, fuel - 1)
      case None => None
      case Some(rest) => Some(Outcome([Call(p.live[p.next], args)] + rest.trace, rest.listens))
  }

  /** `emit(type, ...args)` with handlers that may change the registry while
      they run. A type without an entry invokes nothing and changes nothing;
      otherwise the walk starts at the beginning of the type's set. */
  function EmitLive<E(==), H(==), A>(r: Registry<E, H>, t: E, args: A,
                                     react: (H, A) -> seq<Mutation<E, H>>, fuel: nat): (out: Option<Outcome<E, H, A>>)
    requires Valid(r)
    ensures t !in r ==> out == Some(Outcome([], r))
    ensures t in r && |r[t]| == 0 ==> out == Some(Outcome([], r))
    ensures out.Some? ==> Valid(out.value.listens)
    ensures out.Some? ==> forall c :: c in out.value.trace ==> c.args == args
    ensures out.Some? && t in r && |r[t]| > 0 ==>
              |out.value.trace| > 0 && out.value.trace[0] == Call(r[t][0], args)
  {
    if t in r then Run(Pass(r, r[t], 0, true), t, args, react, fuel)
    else Some(Outcome([], r))
  }

  /** The only way a handler can come to be ahead of the cursor is to be
      there already or to be subscribed to the emitted type by one of the
      changes. */
  lemma {:induction false} StepAllPendingSource<E, H>(p: Pass<E, H>, t: E, ms: seq<Mutation<E, H>>)
    requires Inv(p, t)
    ensures forall x :: x in Pending(StepAll(p, t, ms)) ==> x in Pending(p) || Subscribe(t, x) in ms
    decreases |ms|
  {
    if |ms| > 0 {
      var m := ms[0];
      var p1 := Step(p, t, m);
      StepPending(p, t, m);
      StepAllPendingSource(p1, t, ms[1..]);
      assert StepAll(p, t, ms) == StepAll(p1, t, ms[1..]);
      forall x | x in Pending(StepAll(p, t, ms))
        ensures x in Pending(p) || Subscribe(t, x) in ms
      {
        if x in Pending(p1) {
          if x !in Pending(p) {
            assert m == Subscribe(t, x);
          }
        } else {
          assert Subscribe(t, x) in ms[1..];
        }
      }
    }
  }

  /** A handler ahead of the cursor stays ahead through the changes of one
      invoked handler unless one of them deletes it from the emitted type
      or clears that type's set. */
  lemma {:induction false} StepAllKeepsUnlessRemoved<E, H>(p: Pass<E, H>, t: E, ms: seq<Mutation<E, H>>)
    requires Inv(p, t)
    ensures forall x :: x in Pending(p) ==>
              || x in Pending(StepAll(p, t, ms))
              || Remove(t, Some(x)) in ms
              || Remove(t, None) in ms
    decreases |ms|
  {
    if |ms| > 0 {
      var m := ms[0];
      var p1 := Step(p, t, m);
      StepPending(p, t, m);
      StepAllKeepsUnlessRemoved(p1, t, ms[1..]);
      assert StepAll(p, t, ms) == StepAll(p1, t, ms[1..]);
      forall x | x in Pending(p)
        ensures || x in Pending(StepAll(p, t, ms))
                || Remove(t, Some(x)) in ms
                || Remove(t, None) in ms
      {
        if x !in Pending(p1) {
          assert m in ms;
          if m.Remove? && m.target.Some? {
            assert m == Remove(t, Some(x));
          }
        } else if x !in Pending(StepAll(p, t, ms)) {
          assert Remove(t, Some(x)) in ms[1..] || Remove(t, None) in ms[1..];
        }
      }
    }
  }

  /** Putting one invocation of `h` in front of a trace: what explained the
      rest of the trace in terms of the handlers ahead after `h` ran explains
      the whole trace in terms of the handlers ahead before it ran. */
  lemma PrependInvoked<E, H, A>(h: H, rest: seq<Call<H, A>>, before: seq<H>, after: seq<H>,
                                t: E, args: A, react: (H, A) -> seq<Mutation<E, H>>)
    requires |before| > 0 && before[0] == h
    requires forall x :: x in after ==> x in before[1..] || Subscribe(t, x) in react(h, args)
    requires forall i :: 0 <= i < |rest| ==>
               || rest[i].handler in after
               || exists j :: 0 <= j < i && Subscribe(t, rest[i].handler) in react(rest[j].handler, args)
    ensures var trace := [Call(h, args)] + rest;
            forall i :: 0 <= i < |trace| ==>
              || trace[i].handler in before
              || exists j :: 0 <= j < i && Subscribe(t, trace[i].handler) in react(trace[j].handler, args)
  {
    var trace := [Call(h, args)] + rest;
    forall i | 0 < i < |trace|
      ensures || trace[i].handler in before
              || exists j :: 0 <= j < i && Subscribe(t, trace[i].handler) in react(trace[j].handler, args)
    {
      var x := trace[i].handler;
      assert x == rest[i - 1].handler;
      if x in after {
        if x in before[1..] {
          assert x in before;
        } else {
          assert Subscribe(t, x) in react(trace[0].handler, args);
        }
      } else {
        var j :| 0 <= j < i - 1 && Subscribe(t, x) in react(rest[j].handler, args);
        assert trace[j + 1] == rest[j];
      }
    }
  }

  /** Every handler a walk invokes was ahead of the cursor when the walk
      started, or was subscribed to the emitted type by a handler invoked
      earlier in the same walk. */
  lemma {:induction false} RunInvokesPendingOrSubscribed<E, H, A>(p: Pass<E, H>, t: E, args: A,
                                                                  react: (H, A) -> seq<Mutation<E, H>>, fuel: nat)
    requires Inv(p, t)
    requires Run(p, t, args, react, fuel).Some?
    ensures var trace := Run(p, t, args, react, fuel).value.trace;
            forall i :: 0 <= i < |trace| ==>
              || trace[i].handler in Pending(p)
              || exists j :: 0 <= j < i && Subscribe(t, trace[i].handler) in react(trace[j].handler, args)
    decreases fuel
  {
    if p.next < |p.live| {
      var h := p.live[p.next];
      var after := Invoke(p, t, args, react);
      InvokePending(p, t, args, react);
      RunInvokesPendingOrSubscribed(after, t, args, react, fuel - 1);
      var rest := Run(after, t, args, react, fuel - 1).value;
      assert Run(p, t, args, react, fuel) == Some(Outcome([Call(h, args)] + rest.trace, rest.listens));
      PrependInvoked(h, rest.trace, Pending(p), Pending(after), t, args, react);
    }
  }

  /** Every handler the live `emit` invokes was registered for the type when
      `emit` was called, or was subscribed to it by a handler invoked earlier
      in the same pass. */
  lemma EmitLiveInvokesRegisteredOrSubscribed<E, H, A>(r: Registry<E, H>, t: E, args: A,
                                                        react: (H, A) -> seq<Mutation<E, H>>, fuel: nat)
    requires Valid(r)
    requires EmitLive(r, t, args, react, fuel).Some?
    ensures var trace := EmitLive(r, t, args, react, fuel).value.trace;
            forall i :: 0 <= i < |trace| ==>
              || (t in r && trace[i].handler in r[t])
              || exists j :: 0 <= j < i && Subscribe(t, trace[i].handler) in react(trace[j].handler, args)
  {
    if t in r {
      var p := Pass(r, r[t], 0, true);
      assert Pending(p) == r[t];
      RunInvokesPendingOrSubscribed(p, t, args, react, fuel);
    }
  }

  /** What a pass promises a handler `x` that is due to be visited: the
      trace invokes `x`, or one of the invoked handlers deletes `x` from the
      emitted type or clears that type's set. */
  ghost predicate ReachedOrRemoved<E, H, A>(trace: seq<Call<H, A>>, t: E, args: A,
                                            react: (H, A) -> seq<Mutation<E, H>>, x: H) {
    || (exists i :: 0 <= i < |trace| && trace[i].handler == x)
    || (exists j :: 0 <= j < |trace| &&
          (Remove(t, Some(x)) in react(trace[j].handler, args) || Remove(t, None) in react(trace[j].handler, args)))
  }

  /** Putting one invocation of `h` in front of a trace keeps every handler
      the trace reaches or removes, and adds `h` and whatever `h` removes. */
  lemma PrependReached<E, H, A>(h: H, rest: seq<Call<H, A>>, t: E, args: A,
                                react: (H, A) -> seq<Mutation<E, H>>, x: H)
    requires || x == h
             || Remove(t, Some(x)) in react(h, args) || Remove(t, None) in react(h, args)
             || ReachedOrRemoved(rest, t, args, react, x)
    ensures ReachedOrRemoved([Call(h, args)] + rest, t, args, react, x)
  {
    var trace := [Call(h, args)] + rest;
    assert trace[0].handler == h;
    if exists i :: 0 <= i < |rest| && rest[i].handler == x {
      var i :| 0 <= i < |rest| && rest[i].handler == x;
      assert trace[i + 1] == rest[i];
    } else if exists j :: 0 <= j < |rest| &&
                (Remove(t, Some(x)) in react(rest[j].handler, args) || Remove(t, None) in react(rest[j].handler, args)) {
      var j :| 0 <= j < |rest| &&
               (Remove(t, Some(x)) in react(rest[j].handler, args) || Remove(t, None) in react(rest[j].handler, args));
      assert trace[j + 1] == rest[j];
    }
  }

  /** The converse of `RunInvokesPendingOrSubscribed`, which is what
      `forEach` promises for members it has not reached: a handler ahead of
      the cursor when the walk starts is invoked, unless some handler the
      walk invokes deletes it from the emitted type or clears that type's
      set. */
  lemma {:induction false} RunInvokesUnlessRemoved<E, H, A>(p: Pass<E, H>, t: E, args: A,
                                                            react: (H, A) -> seq<Mutation<E, H>>, fuel: nat)
    requires Inv(p, t)
    requires Run(p, t, args, react, fuel).Some?
    ensures forall x :: x in Pending(p) ==> ReachedOrRemoved(Run(p, t, args, react, fuel).value.trace, t, args, react, x)
    decreases fuel
  {
    if p.next < |p.live| {
      var h := p.live[p.next];
      var after := Invoke(p, t, args, react);
      InvokePending(p, t, args, react);
      RunInvokesUnlessRemoved(after, t, args, react, fuel - 1);
      var rest := Run(after, t, args, react, fuel - 1).value;
      assert Run(p, t, args, react, fuel) == Some(Outcome([Call(h, args)] + rest.trace, rest.listens));
      forall x | x in Pending(p)
        ensures ReachedOrRemoved([Call(h, args)] + rest.trace, t, args, react, x)
      {
        if x != h {
          assert x in Pending(p)[1..] by {
            var k :| 0 <= k < |Pending(p)| && Pending(p)[k] == x;
            assert Pending(p)[1..][k - 1] == x;
          }
        }
        PrependReached(h, rest.trace, t, args, react, x);
      }
    }
  }

  /** Every handler registered for the type when `emit` is called is invoked
      by the live `emit`, unless a handler it invokes deletes it from the type
      or clears the type's set first or instead. */
  lemma EmitLiveInvokesUnlessRemoved<E, H, A>(r: Registry<E, H>, t: E, args: A,
                                               react: (H, A) -> seq<Mutation<E, H>>, fuel: nat)
    requires Valid(r)
    requires EmitLive(r, t, args, react, fuel).Some?
    ensures forall x :: t in r && x in r[t] ==>
              ReachedOrRemoved(EmitLive(r, t, args, react, fuel).value.trace, t, args, react, x)
  {
    if t in r {
      var p := Pass(r, r[t], 0, true);
      assert Pending(p) == r[t];
      RunInvokesUnlessRemoved(p, t, args, react, fuel);
    }
  }

  /** A registered handler that no handler ever deletes from the type, and
      whose type no handler clears, is invoked by every finished pass. */
  lemma EmitLiveInvokesUnremoved<E, H, A>(r: Registry<E, H>, t: E, args: A,
                                          react: (H, A) -> seq<Mutation<E, H>>, fuel: nat, x: H)
    requires Valid(r)
    requires EmitLive(r, t, args, react, fuel).Some?
    requires t in r && x in r[t]
    requires forall h :: Remove(t, Some(x)) !in react(h, args) && Remove(t, None) !in react(h, args)
    ensures exists i :: 0 <= i < |EmitLive(r, t, args, react, fuel).value.trace| &&
                        EmitLive(r, t, args, react, fuel).value.trace[i].handler == x
  {
    EmitLiveInvokesUnlessRemoved(r, t, args, react, fuel);
    assert ReachedOrRemoved(EmitLive(r, t, args, react, fuel).value.trace, t, args, react, x);
  }

  /** No handler occurs twice in a trace unless, between the two
      invocations, one of the invoked handlers (the first of the two
      included) subscribed it to the emitted type again. */
  ghost predicate OnceUnlessResubscribed<E, H, A>(trace: seq<Call<H, A>>, t: E, args: A,
                                                  react: (H, A) -> seq<Mutation<E, H>>) {
    forall i, j {:trigger trace[i..j]} :: 0 <= i < j < |trace| && trace[i].handler == trace[j].handler ==>
      exists c :: c in trace[i..j] && Subscribe(t, trace[j].handler) in react(c.handler, args)
  }

  /** A repeat of the new first invocation `h` at position `j` of the
      longer trace: some invocation before it subscribed `h` again. */
  lemma PrependOnceFirst<E, H, A>(h: H, rest: seq<Call<H, A>>, t: E, args: A,
                                  react: (H, A) -> seq<Mutation<E, H>>, j: nat)
    requires 0 < j <= |rest| && rest[j - 1].handler == h
    requires || Subscribe(t, h) in react(h, args)
             || exists k :: 0 <= k < j - 1 && Subscribe(t, h) in react(rest[k].handler, args)
    ensures var trace := [Call(h, args)] + rest;
            exists c :: c in trace[0..j] && Subscribe(t, trace[j].handler) in react(c.handler, args)
  {
    var trace := [Call(h, args)] + rest;
    assert trace[j] == rest[j - 1];
    if Subscribe(t, h) in react(h, args) {
      assert trace[0..j][0] == Call(h, args);
    } else {
      var k :| 0 <= k < j - 1 && Subscribe(t, h) in react(rest[k].handler, args);
      assert trace[0..j][k + 1] == rest[k];
    }
  }

  /** A repeat within the old trace, at positions `i` and `j` of the longer
      one, keeps its witness. */
  lemma PrependOnceLater<E, H, A>(h: H, rest: seq<Call<H, A>>, t: E, args: A,
                                  react: (H, A) -> seq<Mutation<E, H>>, i: nat, j: nat)
    requires OnceUnlessResubscribed(rest, t, args, react)
    requires 0 < i < j <= |rest| && rest[i - 1].handler == rest[j - 1].handler
    ensures var trace := [Call(h, args)] + rest;
            exists c :: c in trace[i..j] && Subscribe(t, trace[j].handler) in react(c.handler, args)
  {
    var trace := [Call(h, args)] + rest;
    assert trace[j] == rest[j - 1];
    assert trace[i..j] == rest[i - 1..j - 1];
  }

  /** Putting one invocation of `h` in front of a trace keeps the property,
      provided every later invocation of `h` itself was preceded by a
      subscription of `h`. */
  lemma PrependOnce<E, H, A>(h: H, rest: seq<Call<H, A>>, t: E, args: A,
                             react: (H, A) -> seq<Mutation<E, H>>)
    requires OnceUnlessResubscribed(rest, t, args, react)
    requires forall j :: 0 <= j < |rest| && rest[j].handler == h ==>
               || Subscribe(t, h) in react(h, args)
               || exists k :: 0 <= k < j && Subscribe(t, h) in react(rest[k].handler, args)
    ensures OnceUnlessResubscribed([Call(h, args)] + rest, t, args, react)
  {
    var trace := [Call(h, args)] + rest;
    forall i, j | 0 <= i < j < |trace| && trace[i].handler == trace[j].handler
      ensures exists c :: c in trace[i..j] && Subscribe(t, trace[j].handler) in react(c.handler, args)
    {
      assert trace[j] == rest[j - 1];
      if i == 0 {
        PrependOnceFirst(h, rest, t, args, react, j);
      } else {
        assert trace[i] == rest[i - 1];
        PrependOnceLater(h, rest, t, args, react, i, j);
      }
    }
  }

  /** After the handler under the cursor has run, the rest of the walk
      invokes it again only after it has been subscribed to the emitted type
      again, by itself or by a handler invoked in between: being duplicate
      free, the set holds it nowhere ahead of the cursor. */
  lemma RestInvokesFirstOnlyIfResubscribed<E, H, A>(p: Pass<E, H>, t: E, args: A,
                                                    react: (H, A) -> seq<Mutation<E, H>>, fuel: nat)
    requires Inv(p, t)
    requires p.next < |p.live|
    requires Run(Invoke(p, t, args, react), t, args, react, fuel).Some?
    ensures var h := p.live[p.next];
            var rest := Run(Invoke(p, t, args, react), t, args, react, fuel).value.trace;
            forall j :: 0 <= j < |rest| && rest[j].handler == h ==>
              || Subscribe(t, h) in react(h, args)
              || exists k :: 0 <= k < j && Subscribe(t, h) in react(rest[k].handler, args)
  {
    var h := p.live[p.next];
    var after := Invoke(p, t, args, react);
    InvokePending(p, t, args, react);
    RunInvokesPendingOrSubscribed(after, t, args, react, fuel);
    assert h !in Pending(p)[1..] by {
      assert h in p.live[..p.next + 1];
      Disjoint(p.live, p.next + 1, h);
      assert Pending(p)[1..] == p.live[p.next + 1..];
    }
  }

  /** The cursor never returns to a handler it has passed: a walk invokes a
      handler a second time only after a handler invoked in between has
      subscribed it to the emitted type again (after deleting it, since
      adding a member that is still in the set changes nothing). */
  lemma {:induction false} RunInvokesOnceUnlessResubscribed<E, H, A>(p: Pass<E, H>, t: E, args: A,
                                                                     react: (H, A) -> seq<Mutation<E, H>>, fuel: nat)
    requires Inv(p, t)
    requires Run(p, t, args, react, fuel).Some?
    ensures OnceUnlessResubscribed(Run(p, t, args, react, fuel).value.trace, t, args, react)
    decreases fuel
  {
    if p.next < |p.live| {
      var h := p.live[p.next];
      var after := Invoke(p, t, args, react);
      RunInvokesOnceUnlessResubscribed(after, t, args, react, fuel - 1);
      RestInvokesFirstOnlyIfResubscribed(p, t, args, react, fuel - 1);
      var rest := Run(after, t, args, react, fuel - 1).value;
      assert Run(p, t, args, react, fuel) == Some(Outcome([Call(h, args)] + rest.trace, rest.listens));
      PrependOnce(h, rest.trace, t, args, react);
    }
  }

  /** The live `emit` invokes a handler a second time only after a handler
      of the same pass has subscribed it to the type again. */
  lemma EmitLiveInvokesOnceUnlessResubscribed<E, H, A>(r: Registry<E, H>, t: E, args: A,
                                                       react: (H, A) -> seq<Mutation<E, H>>, fuel: nat)
    requires Valid(r)
    requires EmitLive(r, t, args, react, fuel).Some?
    ensures OnceUnlessResubscribed(EmitLive(r, t, args, react, fuel).value.trace, t, args, react)
  {
    if t in r {
      RunInvokesOnceUnlessResubscribed(Pass(r, r[t], 0, true), t, args, react, fuel);
    }
  }

  /** A mutation that cannot disturb a pass over type `t` when performed by
      handler `h`: it concerns another type, it is `h` unsubscribing itself,
      or it is `listens.clear()`. */
  ghost predicate SelfContained<E, H>(m: Mutation<E, H>, t: E, h: H) {
    match m
    case Subscribe(u, _) => u != t
    case Remove(u, x) => u != t || x == Some(h)
    case ClearListens => true
  }

  /** Mutations that cannot disturb the pass leave what is ahead of the
      cursor as it was, provided the invoking handler is not itself ahead. */
  lemma {:induction false} StepAllSelfContained<E, H>(p: Pass<E, H>, t: E, h: H, ms: seq<Mutation<E, H>>)
    requires Inv(p, t)
    requires h !in Pending(p)
    requires forall m :: m in ms ==> SelfContained(m, t, h)
    ensures Pending(StepAll(p, t, ms)) == Pending(p)
    decreases |ms|
  {
    if |ms| > 0 {
      var m := ms[0];
      assert m in ms;
      StepPending(p, t, m);
      if m.Remove? && m.event == t {
        assert m.target == Some(h);
      }
      assert Pending(Step(p, t, m)) == Pending(p);
      assert forall m' :: m' in ms[1..] ==> m' in ms;
      StepAllSelfContained(Step(p, t, m), t, h, ms[1..]);
    }
  }

  /** Invoking the handler under the cursor, when its changes cannot disturb
      the pass, moves the cursor past it and changes nothing else ahead. */
  lemma InvokeSelfContained<E, H, A>(p: Pass<E, H>, t: E, args: A,
                                     react: (H, A) -> seq<Mutation<E, H>>)
    requires Inv(p, t)
    requires p.next < |p.live|
    requires forall m :: m in react(p.live[p.next], args) ==> SelfContained(m, t, p.live[p.next])
    ensures Pending(Invoke(p, t, args, react)) == Pending(p)[1..]
  {
    var h := p.live[p.next];
    var p1 := p.(next := p.next + 1);
    assert Pending(p1) == Pending(p)[1..];
    assert h !in Pending(p1);
    StepAllSelfContained(p1, t, h, react(h, args));
  }

  /** A walk whose handlers only unsubscribe themselves, touch other types
      or clear the map invokes exactly the handlers ahead of the cursor, in
      order, once each. */
  lemma {:induction false} RunSelfContained<E, H, A>(p: Pass<E, H>, t: E, args: A,
                                                      react: (H, A) -> seq<Mutation<E, H>>, fuel: nat)
    requires Inv(p, t)
    requires fuel >= |Pending(p)|
    requires forall h, m :: h in Pending(p) && m in react(h, args) ==> SelfContained(m, t, h)
    ensures Run(p, t, args, react, fuel).Some?
    ensures Run(p, t, args, react, fuel).value.trace == Calls(Pending(p), args)
    decreases |Pending(p)|
  {
    if p.next < |p.live| {
      var h := p.live[p.next];
      assert h == Pending(p)[0];
      InvokeSelfContained(p, t, args, react);
      var after := Invoke(p, t, args, react);
      forall h', m | h' in Pending(after) && m in react(h', args)
        ensures SelfContained(m, t, h')
      {
        assert h' in Pending(p);
      }
      RunSelfContained(after, t, args, react, fuel - 1);
      var rest := Run(after, t, args, react, fuel - 1).value;
      assert Run(p, t, args, react, fuel) == Some(Outcome([Call(h, args)] + rest.trace, rest.listens));
      assert Calls(Pending(p), args) == [Call(h, args)] + Calls(Pending(p)[1..], args);
    }
  }

  /** The test "removes listener during event": when handlers unsubscribe
      only themselves (or touch only other types, or clear the map), the live
      pass invokes exactly what the snapshot `Emit` lists: every handler of
      the type, in insertion order, once each. */
  lemma EmitLiveSelfContained<E, H, A>(r: Registry<E, H>, t: E, args: A,
                                       react: (H, A) -> seq<Mutation<E, H>>, fuel: nat)
    requires Valid(r)
    requires t in r ==> fuel >= |r[t]|
    requires forall h, m :: t in r && h in r[t] && m in react(h, args) ==> SelfContained(m, t, h)
    ensures EmitLive(r, t, args, react, fuel).Some?
    ensures EmitLive(r, t, args, react, fuel).value.trace == Emit(r, t, args)
  {
    if t in r {
      var p := Pass(r, r[t], 0, true);
      assert Pending(p) == r[t];
      RunSelfContained(p, t, args, react, fuel);
    }
  }

  /** A walk whose handlers change nothing leaves the registry unchanged. */
  lemma {:induction false} RunQuiet<E, H, A>(p: Pass<E, H>, t: E, args: A,
                                              react: (H, A) -> seq<Mutation<E, H>>, fuel: nat)
    requires Inv(p, t)
    requires forall h :: h in Pending(p) ==> react(h, args) == []
    requires Run(p, t, args, react, fuel).Some?
    ensures Run(p, t, args, react, fuel).value.listens == p.listens
    decreases fuel
  {
    if p.next < |p.live| {
      var p1 := p.(next := p.next + 1);
      assert p.live[p.next] in Pending(p);
      assert Invoke(p, t, args, react) == p1;
      assert Pending(p1) == Pending(p)[1..];
      RunQuiet(p1, t, args, react, fuel - 1);
    }
  }

  /** With handlers that do not touch the registry, the live pass and the
      snapshot `Emit` agree on the invocations, and the registry is left as
      it was. */
  lemma EmitLiveQuiet<E, H, A>(r: Registry<E, H>, t: E, args: A,
                               react: (H, A) -> seq<Mutation<E, H>>, fuel: nat)
    requires Valid(r)
    requires t in r ==> fuel >= |r[t]|
    requires forall h :: t in r && h in r[t] ==> react(h, args) == []
    ensures EmitLive(r, t, args, react, fuel) == Some(Outcome(Emit(r, t, args), r))
  {
    EmitLiveSelfContained(r, t, args, react, fuel);
    if t in r {
      var p := Pass(r, r[t], 0, true);
      assert Pending(p) == r[t];
      RunQuiet(p, t, args, react, fuel);
    }
  }
}

=== FILE: ordered_set.dfy ===
/**
 A JavaScript `Set` seen as the sequence of its members in insertion order.
 `Set.prototype.add` appends a value that is not yet present and leaves the
 set alone otherwise; `Set.prototype.delete` takes a value out and keeps the
 order of the rest. A well-formed set has no duplicates.
 */
module OrderedSet {

  /** No value occurs twice: the sequence is the iteration order of a set. */
  ghost predicate NoDup<T>(s: seq<T>) {
    forall i, j :: 0 <= i < j < |s| ==> s[i] != s[j]
  }

  /** `set.add(x)`: membership grows by exactly `x`, and the members already
      there keep their positions. */
  function Add<T(==)>(s: seq<T>, x: T): (s': seq<T>)
    ensures s <= s'
    ensures x in s'
    ensures forall y :: y in s ==> y in s'
    ensures forall y :: y in s' ==> y in s || y == x
    ensures |s'| == if x in s then |s| else |s| + 1
    ensures NoDup(s) ==> NoDup(s')
  {
    if x in s then s else s + [x]
  }

  /** `set.delete(x)`: membership shrinks by exactly `x`; the remaining
      members keep their relative order (see `DeleteAt`). */
  function Delete<T(==)>(s: seq<T>, x: T): (s': seq<T>)
    ensures x !in s'
    ensures forall y :: y in s && y != x ==> y in s'
    ensures forall y :: y in s' ==> y in s
    ensures |s'| <= |s|
    ensures x !in s ==> s' == s
    ensures NoDup(s) ==> NoDup(s')
  {
    if |s| == 0 then []
    else if s[0] == x then Delete(s[1..], x)
    else
      var rest := Delete(s[1..], x);
      assert NoDup(s) ==> s[0] !in s[1..];
      [s[0]] + rest
  }

  /** Deleting the member at position `k` of a duplicate-free sequence is
      exactly cutting that position out. */
  lemma {:induction false} DeleteAt<T>(s: seq<T>, k: nat)
    requires NoDup(s)
    requires k < |s|
    ensures Delete(s, s[k]) == s[..k] + s[k + 1..]
  {
    if k == 0 {
      assert s[k] !in s[1..];
      assert Delete(s, s[0]) == Delete(s[1..], s[0]) == s[1..];
    } else {
      var x := s[k];
      assert s[0] != x;
      assert NoDup(s[1..]) && s[1..][k - 1] == x;
      DeleteAt(s[1..], k - 1);
      assert s[1..][..k - 1] + s[1..][k..] == s[1..k] + s[k + 1..];
      assert [s[0]] + s[1..k] == s[..k];
    }
  }

  /** In a duplicate-free sequence a member occurs at exactly one position. */
  lemma {:induction false} UniquePosition<T>(s: seq<T>, i: nat, j: nat)
    requires NoDup(s)
    requires i < |s| && j < |s|
    requires s[i] == s[j]
    ensures i == j
  {
  }

  /** Removing a member that was just appended gives back the original. */
  lemma {:induction false} DeleteLast<T>(s: seq<T>, x: T)
    requires x !in s
    ensures Delete(s + [x], x) == s
  {
    if |s| == 0 {
      assert s + [x] == [x];
    } else {
      assert (s + [x])[1..] == s[1..] + [x];
      DeleteLast(s[1..], x);
      assert [s[0]] + s[1..] == s;
    }
  }

  /** Deleting from a concatenation deletes from both parts. */
  lemma {:induction false} DeleteAppend<T>(a: seq<T>, b: seq<T>, x: T)
    ensures Delete(a + b, x) == Delete(a, x) + Delete(b, x)
  {
    if |a| > 0 {
      assert (a + b)[1..] == a[1..] + b;
      DeleteAppend(a[1..], b, x);
    } else {
      assert a + b == b;
    }
  }

  /** Deleting a member of a duplicate-free sequence shortens it by one. */
  lemma DeleteMember<T>(s: seq<T>, x: T)
    requires NoDup(s)
    requires x in s
    ensures |Delete(s, x)| == |s| - 1
  {
    var k :| 0 <= k < |s| && s[k] == x;
    DeleteAt(s, k);
  }

  /** In a duplicate-free sequence, a member of the first `n` positions does
      not occur after them. */
  lemma Disjoint<T>(s: seq<T>, n: nat, x: T)
    requires NoDup(s)
    requires n <= |s|
    requires x in s[..n]
    ensures x !in s[n..]
  {
    var i :| 0 <= i < n && s[..n][i] == x;
    forall j | 0 <= j < |s[n..]|
      ensures s[n..][j] != x
    {
      assert s[n..][j] == s[n + j] && i < n + j;
    }
  }
}

=== FILE: scenarios.dfy ===
/**
 The repository's test cases (test/index.test.ts) replayed on the model,
 with event types as strings, handlers as numbers and argument lists as
 sequences of integers. A handler's recorded side effect is read off the
 invocation trace.
 */
module Scenarios {
  import opened Wrappers
  import opened OrderedSet
  import opened Emitter
  import opened LiveEmit

  /** "adds listeners": one handler for 'one', two different handlers for
      'two'. */
  lemma AddsListeners()
    ensures var r := On(On(On(map[], "one", 1).listens, "two", 2).listens, "two", 3).listens;
            |r["one"]| == 1 && |r["two"]| == 2
  {
  }

  /** "call listener": emitting reaches the handler once with the arguments;
      after unsubscribing, emitting reaches nothing. */
  lemma CallListener()
    ensures var out := On(map[], "tick", 1);
            && Emit(out.listens, "tick", [2, 4]) == [Call(1, [2, 4])]
            && Emit(Unbind(out.unbind, out.listens), "tick", [2, 4]) == []
  {
  }

  /** "calls listeners": three emits of different argument lists reach the
      one handler with each list, in order. */
  lemma CallsListeners()
    ensures var r := On(map[], "push", 1).listens;
            Emit(r, "push", [1, 1]) + Emit(r, "push", [2, 2]) + Emit(r, "push", [3, 3, 3])
            == [Call(1, [1, 1]), Call(1, [2, 2]), Call(1, [3, 3, 3])]
  {
  }

  /** "unbinds listener" and "off listener": after the first handler is
      unsubscribed, the next emit reaches only the second. */
  lemma UnbindsListener()
    ensures var first := On(map[], "push", 1);
            var r := On(first.listens, "push", 2).listens;
            && Emit(r, "push", [1]) == [Call(1, [1]), Call(2, [1])]
            && Emit(Unbind(first.unbind, r), "push", [2]) == [Call(2, [2])]
  {
  }

  /** "off listeners": `off` without a handler silences the type but keeps
      its entry. */
  lemma OffListeners()
    ensures var r := On(On(map[], "calc", 1).listens, "calc", 2).listens;
            && Emit(r, "calc", [2, 4]) == [Call(1, [2, 4]), Call(2, [2, 4])]
            && "calc" in Off(r, "calc", None)
            && Emit(Off(r, "calc", None), "calc", [2, 4]) == []
  {
  }

  /** "removes event on no listeners": each unsubscribe closure removes its
      handler once; a second call changes nothing; the type's set ends up
      empty rather than missing. */
  lemma RemovesEventOnNoListeners()
    ensures var one := On(map[], "one", 1);
            var two := On(one.listens, "one", 2);
            var r1 := Unbind(one.unbind, two.listens);
            var r2 := Unbind(one.unbind, r1);
            var r3 := Unbind(two.unbind, r2);
            var r4 := Unbind(two.unbind, r3);
            && |r1["one"]| == 1 && |r2["one"]| == 1
            && |r3["one"]| == 0 && |r4["one"]| == 0
  {
  }

  /** Handler 1 calls its own unsubscribe closure for 'event'. */
  function UnbindsItself(h: int, args: seq<int>): (ms: seq<Mutation<string, int>>) {
    if h == 1 then [Remove("event", Some(1))] else []
  }

  /** Handler 1 subscribes handler 2 to 'event'. */
  function SubscribesAnother(h: int, args: seq<int>): (ms: seq<Mutation<string, int>>) {
    if h == 1 then [Subscribe("event", 2)] else []
  }

  /** Handler 1 unsubscribes handler 2 from 'event'. */
  function UnbindsAnother(h: int, args: seq<int>): (ms: seq<Mutation<string, int>>) {
    if h == 1 then [Remove("event", Some(2))] else []
  }

  /** Handler 1 unsubscribes itself and subscribes handler 3 to 'event'. */
  function UnbindsItselfAddsAnother(h: int, args: seq<int>): (ms: seq<Mutation<string, int>>) {
    if h == 1 then [Remove("event", Some(1)), Subscribe("event", 3)] else []
  }

  /** Handlers that change the walked set in other ways than unsubscribing
      themselves still cannot make the pass miss a handler that nobody
      removes: handler 2 is invoked whatever handler 1 does to itself and
      to handler 3, for any bound on the pass that lets it finish. */
  lemma UnremovedHandlerIsInvoked(fuel: nat)
    requires EmitLive(map["event" := [1, 2]], "event", [], UnbindsItselfAddsAnother, fuel).Some?
    ensures var trace := EmitLive(map["event" := [1, 2]], "event", [], UnbindsItselfAddsAnother, fuel).value.trace;
            exists i :: 0 <= i < |trace| && trace[i].handler == 2
  {
    var r: Registry<string, int> := map["event" := [1, 2]];
    assert Valid(r);
    forall h
      ensures Remove("event", Some(2)) !in UnbindsItselfAddsAnother(h, [])
      ensures Remove("event", None) !in UnbindsItselfAddsAnother(h, [])
    {
    }
    EmitLiveInvokesUnremoved(r, "event", [], UnbindsItselfAddsAnother, fuel, 2);
  }

  /** Handler 1, just passed by the cursor, deletes itself from [1, 2]: the
      cursor shifts back onto handler 2. */
  lemma UnbindsItselfStep()
    ensures Step(Pass(map["event" := [1, 2]], [1, 2], 1, true), "event", Remove("event", Some(1)))
            == Pass(map["event" := [2]], [2], 0, true)
  {
    var r: Registry<string, int> := map["event" := [1, 2]];
    var p1 := Pass(r, [1, 2], 1, true);
    assert Delete([1, 2], 1) == [2];
    assert Apply(r, Remove("event", Some(1))) == map["event" := [2]];
    assert 1 in p1.live[..p1.next];
  }

  /** Invoking handler 1 of [1, 2] under `UnbindsItselfAddsAnother`: the
      set loses handler 1, so the cursor shifts back onto handler 2, and
      gains handler 3 at the end. */
  lemma UnbindsItselfAddsAnotherFirstInvocation()
    ensures Invoke(Pass(map["event" := [1, 2]], [1, 2], 0, true), "event", [], UnbindsItselfAddsAnother)
            == Pass(map["event" := [2, 3]], [2, 3], 0, true)
  {
    var r: Registry<string, int> := map["event" := [1, 2]];
    var mid: Registry<string, int> := map["event" := [2]];
    var m1: Mutation<string, int> := Remove("event", Some(1));
    var m2: Mutation<string, int> := Subscribe("event", 3);
    assert UnbindsItselfAddsAnother(1, []) == [m1, m2];
    var p1 := Pass(r, [1, 2], 1, true);
    UnbindsItselfStep();
    var p2 := Step(p1, "event", m1);
    assert p2 == Pass(mid, [2], 0, true);
    assert Add([2], 3) == [2, 3];
    assert Apply(mid, m2) == map["event" := [2, 3]];
    var p3 := Step(p2, "event", m2);
    assert p3 == Pass(map["event" := [2, 3]], [2, 3], 0, true);
    assert [m1, m2][1..] == [m2];
    assert StepAll(p2, "event", [m2]) == p3;
    assert StepAll(p1, "event", [m1, m2]) == p3;
  }

  /** After handler 1 has run, the walk over [2, 3] reaches handler 2 and
      then handler 3, neither of which changes anything. */
  lemma UnbindsItselfAddsAnotherRest()
    ensures Run(Pass(map["event" := [2, 3]], [2, 3], 0, true), "event", [], UnbindsItselfAddsAnother, 2)
            == Some(Outcome([Call(2, []), Call(3, [])], map["event" := [2, 3]]))
  {
    var after: Registry<string, int> := map["event" := [2, 3]];
    var react := UnbindsItselfAddsAnother;
    var q0 := Pass(after, [2, 3], 0, true);
    assert react(2, []) == [] && react(3, []) == [];
    assert Invoke(q0, "event", [], react) == q0.(next := 1);
    assert Invoke(q0.(next := 1), "event", [], react) == q0.(next := 2);
    assert Run(q0.(next := 2), "event", [], react, 0) == Some(Outcome([], after));
    assert Run(q0.(next := 1), "event", [], react, 1) == Some(Outcome([Call(3, [])] + [], after));
    assert Run(q0, "event", [], react, 2) == Some(Outcome([Call(2, [])] + ([Call(3, [])] + []), after));
    var none: seq<int> := [];
    assert [Call(2, none)] + ([Call(3, none)] + []) == [Call(2, none), Call(3, none)];
  }

  /** The whole pass: handler 1 runs and unsubscribes itself, handler 2 is
      still reached, and handler 3, subscribed during the pass, is reached
      after it; the pass ends with [2, 3] registered. */
  lemma UnbindsItselfAddsAnotherPass()
    ensures EmitLive(map["event" := [1, 2]], "event", [], UnbindsItselfAddsAnother, 3)
            == Some(Outcome([Call(1, []), Call(2, []), Call(3, [])], map["event" := [2, 3]]))
  {
    var after: Registry<string, int> := map["event" := [2, 3]];
    var r: Registry<string, int> := map["event" := [1, 2]];
    var p0 := Pass(r, [1, 2], 0, true);
    assert NoDup([1, 2]);
    assert Valid(r);
    assert Inv(p0, "event");
    UnbindsItselfAddsAnotherFirstInvocation();
    UnbindsItselfAddsAnotherRest();
    var none: seq<int> := [];
    var tail := [Call(2, none), Call(3, none)];
    assert Run(p0, "event", [], UnbindsItselfAddsAnother, 3) == Some(Outcome([Call(1, none)] + tail, after));
    assert EmitLive(r, "event", none, UnbindsItselfAddsAnother, 3) == Run(p0, "event", [], UnbindsItselfAddsAnother, 3);
    assert [Call(1, none)] + tail == [Call(1, none), Call(2, none), Call(3, none)];
  }

  /** "removes listener during event": handler 1 unsubscribes itself while
      it runs, and handler 2 is still reached in the same pass. */
  lemma RemovesListenerDuringEvent()
    ensures var r := On(On(map[], "event", 1).listens, "event", 2).listens;
            var react := UnbindsItself;
            && EmitLive(r, "event", [], react, 2).Some?
            && EmitLive(r, "event", [], react, 2).value.trace == [Call(1, []), Call(2, [])]
  {
    var r := On(On(map[], "event", 1).listens, "event", 2).listens;
    var react := UnbindsItself;
    assert r["event"] == [1, 2];
    forall h, m | h in r["event"] && m in react(h, []) ensures SelfContained(m, "event", h) {
    }
    EmitLiveSelfContained(r, "event", [], react, 2);
  }

  /** A handler subscribed to the emitted type while the pass runs is
      reached later in the same pass, since the pass walks the live set. */
  lemma AddedDuringPassIsVisited()
    ensures var r := On(map[], "event", 1).listens;
            var react := SubscribesAnother;
            EmitLive(r, "event", [], react, 2)
            == Some(Outcome([Call(1, []), Call(2, [])], map["event" := [1, 2]]))
  {
    var r := On(map[], "event", 1).listens;
    var after: Registry<string, int> := map["event" := [1, 2]];
    assert r == map["event" := [1]];
    var react := SubscribesAnother;
    var m: Mutation<string, int> := Subscribe("event", 2);
    assert react(1, []) == [m];
    var p0 := Pass(r, [1], 0, true);
    var p1 := p0.(next := 1);
    assert Add([1], 2) == [1, 2];
    assert Apply(r, m) == after;
    assert Step(p1, "event", m) == Pass(after, [1, 2], 1, true);
    assert StepAll(p1, "event", [m]) == Step(p1, "event", m);
    var p2 := Pass(after, [1, 2], 1, true);
    assert react(2, []) == [];
    assert StepAll(p2.(next := 2), "event", []) == p2.(next := 2);
    assert Run(p2.(next := 2), "event", [], react, 0) == Some(Outcome([], after));
    assert Run(p2, "event", [], react, 1) == Some(Outcome([Call(2, [])] + [], after));
    assert p0.live[p0.next] == 1;
    assert Invoke(p0, "event", [], react) == p2;
    assert Run(p0, "event", [], react, 2) == Some(Outcome([Call(1, [])] + ([Call(2, [])] + []), after));
    var none: seq<int> := [];
    assert [Call(1, none)] + ([Call(2, none)] + []) == [Call(1, none), Call(2, none)];
  }

  /** Invoking handler 1 of [1, 2] under `UnbindsAnother` deletes handler 2
      from the walked set and from the map, before the cursor reaches it. */
  lemma UnbindsAnotherFirstInvocation()
    ensures Invoke(Pass(map["event" := [1, 2]], [1, 2], 0, true), "event", [], UnbindsAnother)
            == Pass(map["event" := [1]], [1], 1, true)
  {
    var r: Registry<string, int> := map["event" := [1, 2]];
    var after: Registry<string, int> := map["event" := [1]];
    var m: Mutation<string, int> := Remove("event", Some(2));
    assert UnbindsAnother(1, []) == [m];
    var p1 := Pass(r, [1, 2], 1, true);
    assert Delete([1, 2], 2) == [1];
    assert Apply(r, m) == after;
    assert Step(p1, "event", m) == Pass(after, [1], 1, true);
    assert StepAll(p1, "event", [m]) == Step(p1, "event", m);
  }

  /** A handler deleted by an earlier handler of the same pass, before the
      pass reaches it, is not invoked. */
  lemma RemovedAheadIsSkipped()
    ensures var r := On(On(map[], "event", 1).listens, "event", 2).listens;
            EmitLive(r, "event", [], UnbindsAnother, 2)
            == Some(Outcome([Call(1, [])], map["event" := [1]]))
  {
    var r := On(On(map[], "event", 1).listens, "event", 2).listens;
    assert Add([1], 2) == [1, 2];
    assert r == map["event" := [1, 2]];
    var after: Registry<string, int> := map["event" := [1]];
    var p0 := Pass(r, [1, 2], 0, true);
    UnbindsAnotherFirstInvocation();
    assert Run(Pass(after, [1], 1, true), "event", [], UnbindsAnother, 1) == Some(Outcome([], after));
    assert Run(p0, "event", [], UnbindsAnother, 2) == Some(Outcome([Call(1, [])] + [], after));
    var none: seq<int> := [];
    assert [Call(1, none)] + [] == [Call(1, none)];
  }
}

=== FILE: wrappers.dfy ===
/** The optional value used for the omitted `handler` argument of `off`. */
module Wrappers {

  datatype Option<+T> = None | Some(value: T)
}
